=== FILE: README.md ===
# AstroStay booking widget, modelled in Dafny

This project models the booking widget of the AstroStay resort site
(`script.js`). The widget has three parts:

- **Price.** `calculatePrice` multiplies the nights of the stay, the traveler
  count, the destination's nightly base price and the cabin-class multiplier.
  It falls back to `$0` when something is missing or the dates are out of
  order. The booking form's submit handler refuses a `$0` total.
- **Date picker.** A calendar edits either the check-in or the check-out field.
  It shows one month at a time and can step back and forth by month. It has a
  Clear button, and it refuses past days and a check-out that is not after
  check-in. After a check-in is picked, a deferred follow-up moves the
  calendar on to check-out.
- **Rendering.** The month grid with its highlighted range, the `YYYY-MM-DD`
  text the selection is stored as, the `Mon D, YYYY` text the fields display,
  and the nights count.

Modules:

- `Dates` (dates.dfy): proleptic Gregorian dates.
  - A day ordinal `DayNumber` makes date comparison match the comparison of
    JavaScript time values.
  - Proved: `Before` is the lexicographic (year, month, day) order, and the
    ordinal is injective.
- `Cursor` (cursor.dfy): the calendar's current month.
  - `JsSetMonth` is `Date.prototype.setMonth` as the source uses it, with day
    overflow.
  - `ShiftMonth` is the corrected month step that the rest of the model uses
    (see Findings).
- `DateText` (date_text.dfy): the text side.
  - `dateToString`, `formatDateDisplay`, and `parseInt` on strings.
  - `new Date("YYYY-MM-DD")` for four-digit years.
  - Round trips and injectivity of both date formats.
- `Pricing` (pricing.dfy): the price tables and `calculatePrice`.
  - Multipliers are exact quarters (1.0, 1.5 and 2.25 are 4/4, 6/4 and 9/4),
    so the total is an exact integer.
- `CalendarGrid` (grid.dfy): `renderCalendar` as a method with two loops. It
  builds the heading and the cell sequence, and every cell is tied to its day.
- `Booking` (booking.dfy): the page's globals.
  - `Picker` is a snapshot of the globals, and one function per handler
    describes that handler's effect on a snapshot.
  - Lemmas cover sequences of handler calls, including the two invariants
    that every sequence preserves.
  - The class `BookingCalendar` holds the globals as fields. Its methods
    update them in place and are proved equal to those functions.

## Model

| member | source | states |
|---|---|---|
| Dates.DaysInMonth | script.js:808 | a month has 28 to 31 days, and 29 exactly for February of a leap year |
| Dates.BeforeIsLexicographic | script.js:828 | comparing two days as time values is the same as comparing (year, month, day) lexicographically |
| Dates.SameDayNumberIsSameDate | script.js:832 | two days have the same time value exactly when they are the same date, which is the `today` test |
| Dates.Before | script.js:828 | the date `<` at day granularity; `Dates.BeforeIsLexicographic` proves it is the (year, month, day) order |
| Dates.DaysBetween | script.js:171 | the nights expression at 171 and 937: positive exactly when the first day is before the second, and 0 exactly when they are the same date |
| Dates.YearsAreOrdered | script.js:844 | every day of an earlier year comes before every day of a later year, so date order is well defined |
| Dates.Weekday | script.js:807 | `getDay` is a column 0..6; `Dates.EpochIsThursday` and `Dates.WeekdayOfNextDay` tie it to the real day of the week |
| Dates.EpochIsThursday | script.js:807 | January 1st 1970 has weekday 4, Thursday, which anchors the weekday numbering to `getDay` with Sunday as 0 |
| Dates.NextDayIsOneLater | script.js:821-822 | the next calendar day, across month and year ends, is exactly one day later |
| Dates.WeekdayOfNextDay | script.js:807 | the next calendar day's weekday is one more, modulo 7, also across month and year ends |
| Cursor.FirstOfMonth | script.js:712-724 | the first day of a month index, with a month past December or before January carried into the year, as the `setMonth` normalisation does at 714, 721 and 887 |
| Cursor.NextFirstOfMonth | script.js:808 | the 1st of the next month comes exactly one month length after the 1st of this month |
| Cursor.JsSetMonth | script.js:712-724 | `setMonth` as written keeps the day number, so a day past the end of the target month rolls into the following month; the cursor lands in the target month exactly when the day fits |
| Cursor.JsNextMonthSkipsAMonth | script.js:721 | from October 31st, "next month" shows December |
| Cursor.JsPrevMonthStaysPut | script.js:712-716 | from March 31st, "previous month" asks for February 31st, which is March 3rd, so the calendar stays on March |
| Cursor.JsFollowUpSkipsFebruary | script.js:886-888 | after a check-in on January 30th, 2025, the follow-up asks for February 30th, which is March 2nd, so February is skipped |
| Cursor.ShiftMonth | script.js:712-724 | the corrected month step lands exactly `delta` months away and clamps the day to the end of that month |
| Cursor.ShiftMonthRoundTrip | script.js:712-724 | next month, then previous month, returns to the starting month |
| Cursor.ShiftMonthAgreesWithoutOverflow | script.js:886-888 | when the day fits the target month, the corrected step and `setMonth` give the same date |
| DateText.NatToString | script.js:916-917 | `String(n)` of a natural number is a non-empty string of decimal digits |
| DateText.NatToStringValue | script.js:916-917 | the digits of `String(n)` read back as `n` |
| DateText.IntToString | script.js:916-917 | `String(n)`: a minus sign before the digits of a negative number; no contract of its own, `DateText.ParseIntOfIntToString` proves `parseInt` reads it back |
| DateText.DigitPrefixStopsAt | script.js:148 | `parseInt` reads exactly the digits up to the first character that cannot continue the number |
| DateText.DigitPrefixIsLongest | script.js:148 | the digits `parseInt` reads are a prefix of its input that ends exactly at the first non-digit |
| DateText.TrimStartIsSuffix | script.js:148 | `parseInt` skips only leading white space and starts at a character that is not white space |
| DateText.ParseInt | script.js:148 | `parseInt(text)`: sign, leading white space and the longest digit run; no contract of its own, its properties are `DateText.DigitPrefixStopsAt`, `DateText.DigitPrefixIsLongest`, `DateText.TrimStartIsSuffix` and `DateText.ParseIntOfIntToString` |
| DateText.ParseIntOfIntToString | script.js:148 | `parseInt` reads back any integer written by `String`, also when a character that is neither a digit nor a letter follows it |
| DateText.Pad2Value | script.js:916-917 | `padStart(2, '0')` of a month or day gives two digits worth that number |
| DateText.DateToString | script.js:914-919 | `dateToString`: no contract of its own; `DateText.DateToStringFields` and `DateText.DateToStringInjective` state what its text holds |
| DateText.DateToStringFields | script.js:914-919 | the `YYYY-MM-DD` string of a date holds exactly that date's year, month and day |
| DateText.DateToStringInjective | script.js:837-839 | distinct dates get distinct `dateToString` texts, so comparing texts is comparing dates |
| DateText.DateStringRoundTrip | script.js:155-159 | `new Date` reads the `dateToString` text of any four-digit-year date back as that date |
| DateText.MonthAbbrev | script.js:922-924 | every month abbreviation has three letters |
| DateText.MonthOfAbbrev | script.js:922-924 | a recognised abbreviation names a month 1..12 whose abbreviation it is |
| DateText.FormatDateDisplay | script.js:921-928 | `formatDateDisplay`: no contract of its own; `DateText.FormatDateDisplayFields` and `DateText.FormatDateDisplayInjective` state what its text holds |
| DateText.FormatDateDisplayFields | script.js:921-928 | the `Mon D, YYYY` text of a date names exactly that month, day and year |
| DateText.FormatDateDisplayInjective | script.js:921-928 | distinct dates are displayed differently |
| Pricing.NightlyRate | script.js:132-143 | base price times class multiplier is a whole number of dollars, at least the base price |
| Pricing.TravelerCount | script.js:148 | `parseInt(text) \|\| 1` is the parsed number, or 1 when it is NaN or 0; it is never 0 |
| Pricing.StayDates | script.js:152-163 | the calendar selection is priced when both of its dates are set, otherwise the hidden inputs when both hold a date, otherwise nothing |
| Pricing.CalculatePrice | script.js:146-186 | the total is 0 when a guard refuses, and otherwise equals nights times travelers times base price times multiplier |
| Pricing.PriceIsZeroExactlyWhenRefused | script.js:165-180 | the total is 0 if and only if a guard refuses: no destination, no complete dates, or check-in not before check-out |
| Pricing.PriceSignFollowsTravelers | script.js:148-180 | a priced stay is positive exactly when the traveler count is positive |
| Pricing.PricedStayHasNights | script.js:171 | a stay whose check-in is before its check-out has at least one night |
| Pricing.MarsExample | script.js:132-186 | Mars, 2025-03-01 to 2025-03-04, two travelers, luxury costs 18000 |
| Pricing.SameDayExample | script.js:165-168 | the same check-in and check-out day costs 0 |
| Pricing.BlankTravelersExample | script.js:148 | a blank travelers field counts as one traveler |
| CalendarGrid.MonthName | script.js:799-800 | month names are non-empty and contain no space |
| CalendarGrid.MonthTitle | script.js:801 | the heading text: no contract of its own; `CalendarGrid.MonthTitleNamesCursor` states what it names |
| CalendarGrid.FirstWeekday | script.js:807 | the number of blank cells before the 1st is a column 0..6 |
| CalendarGrid.MonthDays | script.js:808 | the cursor's month has 28 to 31 days, 29 exactly for a leap February |
| CalendarGrid.MonthTitleNamesCursor | script.js:801 | the heading is the cursor's month name, a space, then the cursor's year as `parseInt` reads it |
| CalendarGrid.DayCell | script.js:822-853 | a day is disabled exactly when it is past, and a disabled day gets no other mark; otherwise it is marked today, range start, range end or in range, each exactly under its condition |
| CalendarGrid.RenderCalendar | script.js:792-857 | the heading; then one blank cell per weekday before the 1st, followed by one cell per day of the month in order, each the cell of that date |
| CalendarGrid.DayNumberWithinMonth | script.js:821-822 | consecutive days of the month are consecutive day numbers |
| CalendarGrid.DayCellColumn | script.js:807-821 | every day's cell sits in the column of its weekday in a seven-column grid |
| Booking.Opened | script.js:765-783 | opening targets the field, shows the calendar and moves the cursor to that field's selected date, or to now when it has none; the dates are untouched |
| Booking.Closed | script.js:785-790 | closing only hides the calendar |
| Booking.Navigated | script.js:712-724 | prev/next move the cursor exactly one month and change nothing else |
| Booking.Cleared | script.js:741-758 | Clear empties the targeted field's selection and hidden input and nothing else; with no target it changes nothing |
| Booking.SelectedDay | script.js:859-912 | a past day is ignored; a check-in is set and drops a check-out that is not after it; a check-out not after the check-in is refused with nothing changed; otherwise the check-out is set and the calendar closes; check-in stays before check-out |
| Booking.AfterCheckIn | script.js:883-893 | after a check-in pick with no check-out, the calendar targets check-out on the month after the picked day; otherwise it closes |
| Booking.NightsShown | script.js:930-948 | the nights count is shown exactly when both dates are set, is the days between them, and is at least 1 |
| Booking.Quote | script.js:146-186 | `calculatePrice` on the globals: 0 exactly when a guard refuses the stay the globals give |
| Booking.Submitted | script.js:210-244 | a submission is refused, with nothing changed, exactly when the price guards refuse; otherwise it is confirmed with the non-zero total and clears the selection only |
| Booking.Loaded | script.js:340-352 | the load handler: an empty check-in input gets tomorrow, the check-out input then gets the day after the check-in input, and nothing else changes |
| Booking.UnpickedPageBooksOneNight | script.js:340-356 | before any date is picked, the pre-filled inputs are a one-night stay from tomorrow, priced as one night when a destination is chosen and confirmed on submit |
| Booking.RunKeepsOrder | script.js:683-686 | across any sequence of handler calls, check-in stays strictly before check-out whenever both are set |
| Booking.MirroredStayIsSelection | script.js:154-159 | while each selected date is also in its hidden input, a complete selection is the stay priced |
| Booking.RunKeepsMirror | script.js:867-901 | across any sequence of handler calls, each selected date is also the value of its hidden input |
| Booking.CheckInThenCheckOut | script.js:866-907 | pick a check-in, let the follow-up run, then pick a later check-out: both dates are set, the calendar is closed, and the nights and price are those of that stay |
| Booking.LaterCheckOutIsKept | script.js:874-891 | re-picking a check-in before the current check-out keeps that check-out, and the follow-up closes the calendar |
| Booking.CheckOutRefusedExactlyWhenNotAfterCheckIn | script.js:894-898 | a check-out pick is refused if and only if it is not after the check-in, and a refusal changes nothing |
| Booking.NotLaterCheckOutIsRefused | script.js:859-907 | from a page with nothing selected, a check-out not after the picked check-in is refused and stays unset |
| Booking.EarlierCheckOutExample | script.js:894-898 | check-in May 5th 2025, then check-out May 4th 2025, is refused and the check-out stays unset |
| Booking.CloseThenReopen | script.js:765-790 | closing and reopening on the same field gives the same state, and so the same grid, as reopening directly |
| Booking.BookingCalendar.constructor | script.js:683-686 | at page load nothing is selected, no field is targeted, the cursor is now and the calendar is hidden; the hidden inputs are then pre-filled as `Booking.Loaded` describes |
| Booking.BookingCalendar.OpenCalendar | script.js:765-783 | updates the globals as `Booking.Opened` describes and keeps the invariants |
| Booking.BookingCalendar.CloseCalendar | script.js:785-790 | updates the globals as `Booking.Closed` describes |
| Booking.BookingCalendar.PrevMonth | script.js:712-716 | moves the cursor back one month, as `Booking.Navigated` with -1 describes |
| Booking.BookingCalendar.NextMonth | script.js:719-723 | moves the cursor forward one month, as `Booking.Navigated` with +1 describes |
| Booking.BookingCalendar.Clear | script.js:741-758 | updates the globals as `Booking.Cleared` describes and keeps the invariants |
| Booking.BookingCalendar.SelectDate | script.js:859-912 | updates the globals and reports the outcome as `Booking.SelectedDay` describes, keeping check-in before check-out |
| Booking.BookingCalendar.AfterCheckInPicked | script.js:883-893 | the deferred follow-up, as `Booking.AfterCheckIn` describes |
| Booking.BookingCalendar.UpdateNightsDisplay | script.js:930-948 | reads the nights count off the globals: hidden unless both dates are set, otherwise at least 1 |
| Booking.BookingCalendar.CalculatePrice | script.js:146-186 | prices the globals' stay; the result is 0 exactly when a guard refuses |
| Booking.BookingCalendar.SubmitBooking | script.js:210-244 | updates the globals and reports the outcome as `Booking.Submitted` describes |

## Left out

- Time zones are not modelled.
  - The source mixes local-midnight dates (`new Date(y, m, d)`, `today.setHours(0,0,0,0)`) with dates parsed from `YYYY-MM-DD` text, which JavaScript reads as UTC midnight.
  - West of UTC, a parsed date's local fields can fall on the previous day.
  - The model treats every date as a calendar day, so it compares days, not instants.
  - East of UTC, the `selectedCheckOut` parsed from text at script.js:874 is a UTC midnight, which falls after the local-midnight `date` of the same day. Re-picking a check-in on the current check-out day therefore keeps the check-out, so check-in equals check-out. `Booking.RunKeepsOrder` holds only under the day-granular reading.
  - The load handler's "tomorrow" is the UTC date of the local time one day ahead; east of UTC, early in the day, that is today. The model takes it as the next calendar day.
- Both dates of the nights count (script.js:171 and 937) are parsed from `YYYY-MM-DD` text as UTC midnights, so their difference is a whole number of days and `Math.ceil` leaves it unchanged; `Dates.DaysBetween` is that number.
- `new Date(y, m, d)` maps years 0..99 to 1900..1999, and JavaScript dates stop at ±8.64e15 ms. Neither is modelled: every year is taken as written.
- Integers are unbounded.
  - The source computes the total in IEEE doubles, with `1.5` and `2.25` as multipliers; the quarter multipliers make every total an exact integer.
  - Totals past 2^53 and `parseInt` results past 2^53, which lose precision in the source, are not modelled.
- DateText.IsWhiteSpace: covers tab, line feed, vertical tab, form feed, carriage return, space, no-break space, U+2028, U+2029 and U+FEFF. Other Unicode space separators that `parseInt` also skips are not covered.
- DateText.ParseIsoDate: covers only four-digit years. Other year forms, and text that names no valid date, give `None` rather than an Invalid Date.
- DateText.DateStringRoundTrip: proved for years 1000..9999 only, because the read side handles only four-digit years.
- The hidden `#checkin`/`#checkout` inputs are modelled as holding either nothing or a date.
  - The load handler (script.js:340-352) writes tomorrow and the day after, as `toISOString` dates; `selectDate` and Clear write a `dateToString` text or `''`.
  - Text naming no date, which `calculatePrice` would price as NaN, is not modelled.
  - The page markup is not part of this model. These inputs are taken to be hidden inputs, whose value `form.reset()` does not restore, so a confirmed submission leaves them as they were.
- Unknown destination or cabin-class keys, which would give `undefined` table lookups and a NaN total, are not modelled. The model's enumerations hold exactly the select options.
- A negative traveler count is kept, not coerced to 1: `parseInt("-2") || 1` is -2. `Pricing.PriceSignFollowsTravelers` states the consequence: such a stay gets a negative total, which the submit handler confirms.
- On a confirmed booking, `bookingForm.reset()` also puts the destination, travelers and cabin-class fields back to their defaults (script.js:225). The model passes these three fields as arguments to each call, so `Booking.Submitted` does not represent that reset. A later call sees whatever values its caller passes.
- DOM and display effects are not modelled: element lookups and their null checks, CSS classes other than the cell's state, body scroll locking, `alert`, the `$`/`toLocaleString` text of the total, and the date display inputs' text. The text those inputs would show is `DateText.FormatDateDisplay`.
- The 300 ms `setTimeout` is not modelled as a timer. Its callback is the separate handler `AfterCheckInPicked`, and `Booking.Run` allows any interleaving of it with other events.
- The `renderCalendar` call each handler makes afterwards is a pure view of the globals. It is `CalendarGrid.RenderCalendar`, applied to the state that the handler leaves.
- The class and the handler functions use the corrected `Cursor.ShiftMonth` for month steps, not the as-written `setMonth` overflow (see Findings).
- Not part of this model: the `min` attributes set on the date inputs, and the page's other features (starfield, menu, destination modal, contact form).

## Findings

| source | as written | input that shows it | evidently intended | confidence | as-written member | corrected member |
|---|---|---|---|---|---|---|
| script.js:712-724 | `setMonth(getMonth() ± 1)` keeps the day of the month, so a day the target month lacks rolls over into the month after it | cursor on 2026-10-31 (a check-in picked on Oct 31, or opened on that day), then next month: November has 30 days, so the calendar shows December. Backwards: previous month from 2025-03-31 asks for Feb 31, which is Mar 3, so the calendar stays on March. The follow-up at script.js:887 after a check-in on 2025-01-30 or 01-31 shows March, skipping February | move exactly one month, clamping the day, so November is shown | not executed | Cursor.JsSetMonth, Cursor.JsNextMonthSkipsAMonth, Cursor.JsPrevMonthStaysPut, Cursor.JsFollowUpSkipsFebruary | Cursor.ShiftMonth |

=== FILE: booking.dfy ===
/**
 * The booking widget's selection state and the handlers that change it: the
 * calendar's open/close, month navigation, Clear button, date picking with
 * its deferred follow-up, and the booking form's submission.
 *
 * `Picker` is a snapshot of the page's globals; each `...ed` function is the
 * effect of one handler on a snapshot, and the class `BookingCalendar` holds
 * the globals themselves and updates them in place as the handlers do.
 */
module Booking {
  import opened Wrappers
  import opened Dates
  import Cursor
  import Pricing

  /** `currentCalendarTarget`: the field the open calendar edits. */
  datatype Field = CheckInField | CheckOutField

  datatype Picker = Picker(
    checkIn: Option<CalendarDate>,        // selectedCheckIn
    checkOut: Option<CalendarDate>,       // selectedCheckOut
    target: Option<Field>,                // currentCalendarTarget (null at first)
    cursor: CalendarDate,                 // currentCalendarDate
    open: bool,                           // the calendar modal is shown
    checkInInput: Option<CalendarDate>,   // hidden #checkin input ('' is None)
    checkOutInput: Option<CalendarDate>)  // hidden #checkout input

  /** The widget's invariant: check-in is strictly before check-out whenever both are set. */
  predicate Ordered(p: Picker) {
    p.checkIn.Some? && p.checkOut.Some? ==> Before(p.checkIn.value, p.checkOut.value)
  }

  /** The selected date of a field. */
  function Selected(p: Picker, field: Field): Option<CalendarDate> {
    match field
    case CheckInField => p.checkIn
    case CheckOutField => p.checkOut
  }

  /** Same selection and hidden inputs. */
  predicate SameDates(p: Picker, q: Picker) {
    p.checkIn == q.checkIn && p.checkOut == q.checkOut
    && p.checkInInput == q.checkInInput && p.checkOutInput == q.checkOutInput
  }

  /**
   * `openCalendar(field)`: the calendar edits `field` and shows the month of
   * that field's selected date, or of today when it has none.
   */
  function Opened(p: Picker, field: Field, now: CalendarDate): (r: Picker)
    ensures r.target == Some(field) && r.open
    ensures Selected(p, field).Some? ==> r.cursor == Selected(p, field).value
    ensures Selected(p, field).None? ==> r.cursor == now
    ensures SameDates(r, p)
  {
    var cursor :=
      if field == CheckInField && p.checkIn.Some? then p.checkIn.value
      else if field == CheckOutField && p.checkOut.Some? then p.checkOut.value
      else now;
    p.(target := Some(field), cursor := cursor, open := true)
  }

  /** `closeCalendar`: hides the calendar and changes nothing else. */
  function Closed(p: Picker): (r: Picker)
    ensures !r.open && SameDates(r, p) && r.target == p.target && r.cursor == p.cursor
  {
    p.(open := false)
  }

  /** The previous/next month buttons: the cursor moves by `delta` months. */
  function Navigated(p: Picker, delta: int): (r: Picker)
    ensures MonthIndex(r.cursor) == MonthIndex(p.cursor) + delta
    ensures SameDates(r, p) && r.target == p.target && r.open == p.open
  {
    p.(cursor := Cursor.ShiftMonth(p.cursor, delta))
  }

  /**
   * The Clear button: empties the selected date and the hidden input of the
   * field the calendar edits, and of no other field.
   */
  function Cleared(p: Picker): (r: Picker)
    ensures p.target == Some(CheckInField) ==>
              r.checkIn.None? && r.checkInInput.None? && r.checkOut == p.checkOut && r.checkOutInput == p.checkOutInput
    ensures p.target == Some(CheckOutField) ==>
              r.checkOut.None? && r.checkOutInput.None? && r.checkIn == p.checkIn && r.checkInInput == p.checkInInput
    ensures p.target.None? ==> r == p
    ensures r.target == p.target && r.cursor == p.cursor && r.open == p.open
    ensures Ordered(p) ==> Ordered(r)
  {
    match p.target
    case Some(CheckInField) => p.(checkIn := None, checkInInput := None)
    case Some(CheckOutField) => p.(checkOut := None, checkOutInput := None)
    case None => p
  }

  /** What a click on a day did. */
  datatype SelectOutcome =
    | PastDate          // the day is before today: ignored
    | NoTarget          // no field is being edited: nothing to set
    | OrderRejected     // "Check-out date must be after check-in date"
    | CheckInPicked     // check-in set; the deferred follow-up is pending
    | CheckOutPicked    // check-out set; the calendar closed

  /**
   * `selectDate(date)`, up to its deferred follow-up. A past day is ignored.
   * Picking a check-in sets it and drops a check-out that is not after it.
   * Picking a check-out is refused when a check-in is set and the day is not
   * after it; otherwise check-out is set and the calendar closes.
   */
  function SelectedDay(p: Picker, date: CalendarDate, today: CalendarDate): (r: (Picker, SelectOutcome))
    ensures Before(date, today) ==> r == (p, PastDate)
    ensures !Before(date, today) && p.target.None? ==> r == (p, NoTarget)
    ensures !Before(date, today) && p.target == Some(CheckInField) ==>
              && r.1 == CheckInPicked
              && r.0.checkIn == Some(date) && r.0.checkInInput == Some(date)
              && (p.checkOut.Some? && Before(date, p.checkOut.value) ==>
                    r.0.checkOut == p.checkOut && r.0.checkOutInput == p.checkOutInput)
              && (p.checkOut.Some? && !Before(date, p.checkOut.value) ==>
                    r.0.checkOut.None? && r.0.checkOutInput.None?)
              && (p.checkOut.None? ==> r.0.checkOut.None? && r.0.checkOutInput == p.checkOutInput)
              && r.0.target == p.target && r.0.cursor == p.cursor && r.0.open == p.open
    ensures !Before(date, today) && p.target == Some(CheckOutField) ==>
              if p.checkIn.Some? && !Before(p.checkIn.value, date) then r == (p, OrderRejected)
              else
                && r.1 == CheckOutPicked && !r.0.open
                && r.0.checkOut == Some(date) && r.0.checkOutInput == Some(date)
                && r.0.checkIn == p.checkIn && r.0.checkInInput == p.checkInInput
                && r.0.target == p.target && r.0.cursor == p.cursor
    ensures Ordered(p) ==> Ordered(r.0)
  {
    if Before(date, today) then (p, PastDate)
    else
      match p.target
      case None => (p, NoTarget)
      case Some(CheckInField) =>
        var dropOut := p.checkOut.Some? && !Before(date, p.checkOut.value);
        var q := p.(checkIn := Some(date), checkInInput := Some(date));
        (if dropOut then q.(checkOut := None, checkOutInput := None) else q, CheckInPicked)
      case Some(CheckOutField) =>
        if p.checkIn.Some? && !Before(p.checkIn.value, date) then (p, OrderRejected)
        else (p.(checkOut := Some(date), checkOutInput := Some(date), open := false), CheckOutPicked)
  }

  /**
   * The step `selectDate` defers after a check-in pick: while check-out is
   * still unset, the calendar switches to check-out and shows the month after
   * the picked day; otherwise it closes.
   */
  function AfterCheckIn(p: Picker, date: CalendarDate): (r: Picker)
    ensures p.checkIn.Some? && p.checkOut.None? ==>
              r.target == Some(CheckOutField) && r.open == p.open
              && MonthIndex(r.cursor) == MonthIndex(date) + 1
    ensures !(p.checkIn.Some? && p.checkOut.None?) ==>
              !r.open && r.target == p.target && r.cursor == p.cursor
    ensures SameDates(r, p)
  {
    if p.checkIn.Some? && p.checkOut.None? then
      p.(target := Some(CheckOutField), cursor := Cursor.ShiftMonth(date, 1))
    else
      p.(open := false)
  }

  /** The dates `calculatePrice` prices in this state. */
  function Stay(p: Picker): Option<(CalendarDate, CalendarDate)> {
    Pricing.StayDates(p.checkIn, p.checkOut, p.checkInInput, p.checkOutInput)
  }

  /** `calculatePrice` in this state, for the form's destination, travelers text and class. */
  function Quote(p: Picker, dest: Option<Pricing.Destination>, travelersText: string,
                 cabin: Pricing.CabinClass): (total: int)
    ensures total == 0 <==> !Pricing.Priceable(dest, Stay(p))
  {
    Pricing.PriceIsZeroExactlyWhenRefused(dest, Stay(p), travelersText, cabin);
    Pricing.CalculatePrice(dest, Stay(p), travelersText, cabin)
  }

  /** The nights count `updateNightsDisplay` shows; `None` when it is hidden. */
  function NightsShown(p: Picker): (nights: Option<int>)
    ensures nights.Some? <==> p.checkIn.Some? && p.checkOut.Some?
    ensures nights.Some? ==> nights.value == DaysBetween(p.checkIn.value, p.checkOut.value)
    ensures Ordered(p) && nights.Some? ==> nights.value >= 1
  {
    if p.checkIn.Some? && p.checkOut.Some? then Some(DaysBetween(p.checkIn.value, p.checkOut.value))
    else None
  }

  datatype SubmitOutcome = Refused | Confirmed(total: int)

  /**
   * The booking form's submit handler: a zero total is refused and changes
   * nothing; any other total is confirmed and the selected dates are reset.
   */
  function Submitted(p: Picker, dest: Option<Pricing.Destination>, travelersText: string,
                     cabin: Pricing.CabinClass): (r: (Picker, SubmitOutcome))
    ensures r.1.Refused? <==> !Pricing.Priceable(dest, Stay(p))
    ensures r.1.Refused? ==> r.0 == p
    ensures r.1.Confirmed? ==>
              && r.1.total == Quote(p, dest, travelersText, cabin) && r.1.total != 0
              && r.0 == p.(checkIn := None, checkOut := None)
    ensures Ordered(p) ==> Ordered(r.0)
  {
    var total := Quote(p, dest, travelersText, cabin);
    Pricing.PriceIsZeroExactlyWhenRefused(dest, Stay(p), travelersText, cabin);
    if total == 0 then (p, Refused)
    else (p.(checkIn := None, checkOut := None), Confirmed(total))
  }

  /**
   * The page's load handler: an empty `#checkin` input gets tomorrow's date,
   * and whenever `#checkin` then holds a date, `#checkout` gets the day after
   * it. Nothing else changes; the price it then shows is `Quote` of the result.
   */
  function Loaded(p: Picker, now: CalendarDate): (r: Picker)
    ensures p.checkInInput.None? ==> r.checkInInput == Some(NextDay(now))
    ensures p.checkInInput.Some? ==> r.checkInInput == p.checkInInput
    ensures r.checkInInput.Some? && r.checkOutInput.Some?
    ensures DaysBetween(r.checkInInput.value, r.checkOutInput.value) == 1
    ensures r == p.(checkInInput := r.checkInInput, checkOutInput := r.checkOutInput)
  {
    var checkIn := if p.checkInInput.None? then NextDay(now) else p.checkInInput.value;
    NextDayIsOneLater(checkIn);
    p.(checkInInput := Some(checkIn), checkOutInput := Some(NextDay(checkIn)))
  }

  /**
   * Before any date is picked, and with `#checkin` empty at load, the
   * pre-filled inputs are a one-night stay from tomorrow: with a destination
   * chosen it is priced as one night, and submitting confirms it.
   */
  lemma UnpickedPageBooksOneNight(p: Picker, now: CalendarDate, dest: Option<Pricing.Destination>,
                                  travelersText: string, cabin: Pricing.CabinClass)
    requires p.checkIn.None? && p.checkOut.None? && p.checkInInput.None?
    ensures var q := Loaded(p, now);
            && Stay(q) == Some((NextDay(now), NextDay(NextDay(now))))
            && (dest.Some? ==>
                  4 * Quote(q, dest, travelersText, cabin)
                  == Pricing.TravelerCount(travelersText)
                     * (Pricing.BasePrice(dest.value) * Pricing.MultiplierQuarters(cabin)))
            && Submitted(q, dest, travelersText, cabin).1
               == (if dest.Some? then Confirmed(Quote(q, dest, travelersText, cabin)) else Refused)
  {
    var q := Loaded(p, now);
    NextDayIsOneLater(now);
    NextDayIsOneLater(NextDay(now));
    assert Stay(q) == Some((NextDay(now), NextDay(NextDay(now))));
  }

  // ---- sequences of handler calls ------------------------------------------

  /** A user action or timer callback that reaches one of the handlers. */
  datatype Event =
    | OpenClicked(field: Field, now: CalendarDate)
    | CloseClicked
    | PrevMonthClicked
    | NextMonthClicked
    | ClearClicked
    | DayClicked(date: CalendarDate, today: CalendarDate)
    | CheckInFollowUp(date: CalendarDate)
    | SubmitClicked(dest: Option<Pricing.Destination>, travelersText: string, cabin: Pricing.CabinClass)

  function Step(p: Picker, e: Event): Picker {
    match e
    case OpenClicked(field, now) => Opened(p, field, now)
    case CloseClicked => Closed(p)
    case PrevMonthClicked => Navigated(p, -1)
    case NextMonthClicked => Navigated(p, 1)
    case ClearClicked => Cleared(p)
    case DayClicked(date, today) => SelectedDay(p, date, today).0
    case CheckInFollowUp(date) => AfterCheckIn(p, date)
    case SubmitClicked(dest, text, cabin) => Submitted(p, dest, text, cabin).0
  }

  function Run(p: Picker, events: seq<Event>): Picker
    decreases |events|
  {
    if events == [] then p else Run(Step(p, events[0]), events[1..])
  }

  /**
   * Whatever the user does, in whatever order, and however the deferred
   * follow-ups interleave, check-in stays strictly before check-out whenever
   * both are set.
   */
  lemma {:induction false} RunKeepsOrder(p: Picker, events: seq<Event>)
    requires Ordered(p)
    ensures Ordered(Run(p, events))
    decreases |events|
  {
    if events != [] {
      var q := Step(p, events[0]);
      assert Ordered(q);
      RunKeepsOrder(q, events[1..]);
    }
  }

  /** A selected date is also the value of its hidden input. */
  predicate InputsMirror(p: Picker) {
    && (p.checkIn.Some? ==> p.checkInInput == p.checkIn)
    && (p.checkOut.Some? ==> p.checkOutInput == p.checkOut)
  }

  /** While the inputs mirror the selection, a complete selection is the stay priced. */
  lemma MirroredStayIsSelection(p: Picker)
    requires InputsMirror(p) && p.checkIn.Some? && p.checkOut.Some?
    ensures Stay(p) == Some((p.checkIn.value, p.checkOut.value))
  {
  }

  lemma StepKeepsMirror(p: Picker, e: Event)
    requires InputsMirror(p)
    ensures InputsMirror(Step(p, e))
  {
  }

  /** Every handler writes a selected date and its hidden input together. */
  lemma {:induction false} RunKeepsMirror(p: Picker, events: seq<Event>)
    requires InputsMirror(p)
    ensures InputsMirror(Run(p, events))
    decreases |events|
  {
    if events != [] {
      StepKeepsMirror(p, events[0]);
      RunKeepsMirror(Step(p, events[0]), events[1..]);
    }
  }

  /**
   * Picking a check-in with no check-out, letting the follow-up run, then
   * picking a later day books that stay: the calendar moved on to the month
   * after check-in, both dates are set, the calendar closed, the nights shown
   * are the days between, and the price is that of the selected dates.
   */
  lemma CheckInThenCheckOut(p: Picker, checkIn: CalendarDate, checkOut: CalendarDate,
                            today: CalendarDate, dest: Option<Pricing.Destination>,
                            travelersText: string, cabin: Pricing.CabinClass)
    requires p.target == Some(CheckInField) && p.checkOut.None?
    requires !Before(checkIn, today) && Before(checkIn, checkOut)
    ensures var (q1, o1) := SelectedDay(p, checkIn, today);
            var q2 := AfterCheckIn(q1, checkIn);
            var (q3, o3) := SelectedDay(q2, checkOut, today);
            && o1 == CheckInPicked
            && q2.target == Some(CheckOutField) && MonthIndex(q2.cursor) == MonthIndex(checkIn) + 1
            && o3 == CheckOutPicked && !q3.open
            && q3.checkIn == Some(checkIn) && q3.checkOut == Some(checkOut)
            && NightsShown(q3) == Some(DaysBetween(checkIn, checkOut))
            && Quote(q3, dest, travelersText, cabin) == Pricing.CalculatePrice(dest, Some((checkIn, checkOut)), travelersText, cabin)
            && (dest.Some? <==> Quote(q3, dest, travelersText, cabin) != 0)
  {
    var (q1, o1) := SelectedDay(p, checkIn, today);
    var q2 := AfterCheckIn(q1, checkIn);
    var (q3, o3) := SelectedDay(q2, checkOut, today);
    assert !Before(checkOut, today);
    Pricing.PriceIsZeroExactlyWhenRefused(dest, Some((checkIn, checkOut)), travelersText, cabin);
  }

  /**
   * Re-picking a check-in earlier than the set check-out keeps the check-out,
   * and the deferred follow-up then closes the calendar.
   */
  lemma LaterCheckOutIsKept(p: Picker, checkIn: CalendarDate, today: CalendarDate)
    requires p.target == Some(CheckInField) && p.checkOut.Some?
    requires !Before(checkIn, today) && Before(checkIn, p.checkOut.value)
    ensures var (q1, _) := SelectedDay(p, checkIn, today);
            var q2 := AfterCheckIn(q1, checkIn);
            q2.checkIn == Some(checkIn) && q2.checkOut == p.checkOut && !q2.open
  {
  }

  /**
   * On the check-out field, with a check-in set, a day that is not after it
   * is refused, and every later day that is not past is accepted.
   */
  lemma CheckOutRefusedExactlyWhenNotAfterCheckIn(p: Picker, date: CalendarDate, today: CalendarDate)
    requires p.target == Some(CheckOutField) && p.checkIn.Some? && !Before(date, today)
    ensures SelectedDay(p, date, today).1 == OrderRejected <==> !Before(p.checkIn.value, date)
    ensures SelectedDay(p, date, today).1 == OrderRejected ==> SelectedDay(p, date, today).0 == p
  {
  }

  /**
   * From a fresh page, opening check-in, picking a day, letting the follow-up
   * run and picking a day that is not after it: the check-out is refused and
   * stays unset, and the check-in stays.
   */
  lemma NotLaterCheckOutIsRefused(start: Picker, checkIn: CalendarDate, checkOut: CalendarDate,
                                  now: CalendarDate)
    requires start.checkIn.None? && start.checkOut.None?
    requires !Before(checkIn, now) && !Before(checkOut, now) && !Before(checkIn, checkOut)
    ensures var q1 := Opened(start, CheckInField, now);
            var q2 := SelectedDay(q1, checkIn, now).0;
            var q3 := AfterCheckIn(q2, checkIn);
            var (q4, outcome) := SelectedDay(q3, checkOut, now);
            outcome == OrderRejected && q4.checkOut.None? && q4.checkIn == Some(checkIn)
  {
  }

  /**
   * Check-in May 5th 2025 picked on May 1st, then check-out May 4th: the
   * check-out is refused and stays unset.
   */
  lemma EarlierCheckOutExample(start: Picker, now: CalendarDate, checkIn: CalendarDate, checkOut: CalendarDate)
    requires start.checkIn.None? && start.checkOut.None?
    requires now == Date(2025, 5, 1) && checkIn == Date(2025, 5, 5) && checkOut == Date(2025, 5, 4)
    ensures var q1 := Opened(start, CheckInField, now);
            var q2 := SelectedDay(q1, checkIn, now).0;
            var q3 := AfterCheckIn(q2, checkIn);
            var (q4, outcome) := SelectedDay(q3, checkOut, now);
            outcome == OrderRejected && q4.checkOut.None? && q4.checkIn == Some(checkIn)
  {
    BeforeIsLexicographic(checkIn, now);
    BeforeIsLexicographic(checkOut, now);
    BeforeIsLexicographic(checkIn, checkOut);
    NotLaterCheckOutIsRefused(start, checkIn, checkOut, now);
  }

  /**
   * Closing the calendar and opening it again on the same field gives the
   * state, and so the grid, that opening it without closing would give.
   */
  lemma CloseThenReopen(p: Picker, field: Field, now: CalendarDate)
    ensures Opened(Closed(p), field, now) == Opened(p, field, now)
  {
  }

  // ---- the page's globals ---------------------------------------------------

  /** The booking widget's module-level state, updated in place by its handlers. */
  class BookingCalendar {
    var checkIn: Option<CalendarDate>
    var checkOut: Option<CalendarDate>
    var target: Option<Field>
    var cursor: CalendarDate
    var open: bool
    var checkInInput: Option<CalendarDate>
    var checkOutInput: Option<CalendarDate>

    function State(): Picker
      reads this
    {
      Picker(checkIn, checkOut, target, cursor, open, checkInInput, checkOutInput)
    }

    /** Check-in before check-out, and each selected date also in its hidden input. */
    predicate Valid()
      reads this
    {
      Ordered(State()) && InputsMirror(State())
    }

    /**
     * Page load: the globals start with nothing selected, no field targeted,
     * the cursor on the current date and the calendar hidden; the hidden
     * inputs hold what the page put in them, and the load handler then
     * pre-fills them as `Loaded` describes.
     */
    constructor (now: CalendarDate, checkInValue: Option<CalendarDate>, checkOutValue: Option<CalendarDate>)
      ensures Valid()
      ensures State() == Loaded(Picker(None, None, None, now, false, checkInValue, checkOutValue), now)
    {
      checkIn, checkOut, target := None, None, None;
      cursor, open := now, false;
      var loadedIn := if checkInValue.None? then NextDay(now) else checkInValue.value;
      checkInInput, checkOutInput := Some(loadedIn), Some(NextDay(loadedIn));
    }

    method OpenCalendar(field: Field, now: CalendarDate)
      requires Valid()
      modifies this
      ensures Valid()
      ensures State() == Opened(old(State()), field, now)
    {
      target := Some(field);
      if field == CheckInField && checkIn.Some? {
        cursor := checkIn.value;
      } else if field == CheckOutField && checkOut.Some? {
        cursor := checkOut.value;
      } else {
        cursor := now;
      }
      open := true;
    }

    method CloseCalendar()
      requires Valid()
      modifies this
      ensures Valid()
      ensures State() == Closed(old(State()))
    {
      open := false;
    }

    method PrevMonth()
      requires Valid()
      modifies this
      ensures Valid()
      ensures State() == Navigated(old(State()), -1)
    {
      cursor := Cursor.ShiftMonth(cursor, -1);
    }

    method NextMonth()
      requires Valid()
      modifies this
      ensures Valid()
      ensures State() == Navigated(old(State()), 1)
    {
      cursor := Cursor.ShiftMonth(cursor, 1);
    }

    method Clear()
      requires Valid()
      modifies this
      ensures Valid()
      ensures State() == Cleared(old(State()))
    {
      if target == Some(CheckInField) {
        checkIn := None;
        checkInInput := None;
      } else if target == Some(CheckOutField) {
        checkOut := None;
        checkOutInput := None;
      }
    }

    method SelectDate(date: CalendarDate, today: CalendarDate) returns (outcome: SelectOutcome)
      requires Valid()
      modifies this
      ensures Valid()
      ensures (State(), outcome) == SelectedDay(old(State()), date, today)
    {
      if Before(date, today) {
        return PastDate;
      }
      if target == Some(CheckInField) {
        checkIn := Some(date);
        checkInInput := Some(date);
        if checkOut.Some? && !Before(date, checkOut.value) {
          checkOut := None;
          checkOutInput := None;
        }
        outcome := CheckInPicked;
      } else if target == Some(CheckOutField) {
        if checkIn.Some? && !Before(checkIn.value, date) {
          return OrderRejected;
        }
        checkOut := Some(date);
        checkOutInput := Some(date);
        open := false;
        outcome := CheckOutPicked;
      } else {
        outcome := NoTarget;
      }
    }

    /** The timer callback `selectDate` schedules after a check-in pick. */
    method AfterCheckInPicked(date: CalendarDate)
      requires Valid()
      modifies this
      ensures Valid()
      ensures State() == AfterCheckIn(old(State()), date)
    {
      if checkIn.Some? && checkOut.None? {
        target := Some(CheckOutField);
        cursor := Cursor.ShiftMonth(date, 1);
      } else {
        open := false;
      }
    }

    /** `updateNightsDisplay`: the nights count, or `None` when the display is hidden. */
    method UpdateNightsDisplay() returns (nights: Option<int>)
      requires Valid()
      ensures nights == NightsShown(State())
      ensures nights.Some? ==> nights.value >= 1
    {
      if checkIn.Some? && checkOut.Some? {
        nights := Some(DaysBetween(checkIn.value, checkOut.value));
      } else {
        nights := None;
      }
    }

    /** `calculatePrice` on the current globals and the form's other fields. */
    method CalculatePrice(dest: Option<Pricing.Destination>, travelersText: string,
                          cabin: Pricing.CabinClass) returns (total: int)
      ensures total == Quote(State(), dest, travelersText, cabin)
      ensures total == 0 <==> !Pricing.Priceable(dest, Stay(State()))
    {
      var stay := Pricing.StayDates(checkIn, checkOut, checkInInput, checkOutInput);
      total := Pricing.CalculatePrice(dest, stay, travelersText, cabin);
      Pricing.PriceIsZeroExactlyWhenRefused(dest, stay, travelersText, cabin);
    }

    /** The booking form's submit handler. */
    method SubmitBooking(dest: Option<Pricing.Destination>, travelersText: string,
                         cabin: Pricing.CabinClass) returns (outcome: SubmitOutcome)
      requires Valid()
      modifies this
      ensures Valid()
      ensures (State(), outcome) == Submitted(old(State()), dest, travelersText, cabin)
    {
      var total := CalculatePrice(dest, travelersText, cabin);
      if total == 0 {
        return Refused;
      }
      checkIn := None;
      checkOut := None;
      outcome := Confirmed(total);
    }
  }
}

=== FILE: cursor.dfy ===
/**
 * Moving the calendar cursor (`currentCalendarDate`) by whole months.
 *
 * The widget moves the cursor with `Date.prototype.setMonth(getMonth() ± 1)`.
 * `JsSetMonth` models that call as written: the day of month is kept and, when
 * the target month is too short, the surplus days spill into the month after.
 * `ShiftMonth` is the step the month navigation evidently intends: the month
 * moves by exactly `delta`, the day is clamped to the target month's length.
 */
module Cursor {
  import opened Dates

  /** January 1st... December 1st on the continuous month scale of `MonthIndex`. */
  function FirstOfMonth(index: int): (r: CalendarDate)
    ensures MonthIndex(r) == index && r.day == 1
  {
    Date(index / 12, index % 12 + 1, 1)
  }

  /** Days in the month with the given continuous index. */
  function MonthLength(index: int): int {
    DaysInMonth(index / 12, index % 12 + 1)
  }

  /** The first of the next month is one month's length after the first of this one. */
  lemma NextFirstOfMonth(index: int)
    ensures DayNumber(FirstOfMonth(index + 1)) == DayNumber(FirstOfMonth(index)) + MonthLength(index)
  {
    var y, m := index / 12, index % 12 + 1;
    if m == 12 {
      assert (index + 1) / 12 == y + 1 && (index + 1) % 12 == 0;
      YearStep(y);
    } else {
      assert (index + 1) / 12 == y && (index + 1) % 12 + 1 == m + 1;
    }
  }

  /**
   * `date.setMonth(m0)` on a date whose time of day is irrelevant: the result
   * is the first day of month `m0` (0-based, relative to January of the date's
   * year) plus `day - 1` days, exactly as the ECMAScript MakeDay step does.
   */
  function JsSetMonth(d: CalendarDate, m0: int): (r: CalendarDate)
    ensures DayNumber(r) == DayNumber(FirstOfMonth(d.year * 12 + m0)) + d.day - 1
    ensures MonthIndex(r) == d.year * 12 + m0 <==> d.day <= MonthLength(d.year * 12 + m0)
    ensures MonthIndex(r) == d.year * 12 + m0 || (MonthIndex(r) == d.year * 12 + m0 + 1 && r.day <= 3)
  {
    var index := d.year * 12 + m0;
    var first := FirstOfMonth(index);
    assert first.year == index / 12 && first.month == index % 12 + 1;
    if d.day <= MonthLength(index) then
      Date(first.year, first.month, d.day)
    else
      var next := FirstOfMonth(index + 1);
      NextFirstOfMonth(index);
      Date(next.year, next.month, d.day - MonthLength(index))
  }

  /** Clicking "next month" on October 31st, 2026 shows December, skipping November. */
  lemma JsNextMonthSkipsAMonth()
    ensures var d := Date(2026, 10, 31);
            JsSetMonth(d, d.month - 1 + 1) == Date(2026, 12, 1)
            && MonthIndex(JsSetMonth(d, d.month - 1 + 1)) == MonthIndex(d) + 2
  {
    var d := Date(2026, 10, 31);
    assert MonthLength(d.year * 12 + 10) == 30;
    assert FirstOfMonth(d.year * 12 + 11) == Date(2026, 12, 1);
  }

  /**
   * Clicking "previous month" on March 31st, 2025 asks for February 31st,
   * which is March 3rd: the calendar stays on March.
   */
  lemma JsPrevMonthStaysPut()
    ensures var d := Date(2025, 3, 31);
            JsSetMonth(d, d.month - 1 - 1) == Date(2025, 3, 3)
            && MonthIndex(JsSetMonth(d, d.month - 1 - 1)) == MonthIndex(d)
  {
    var d := Date(2025, 3, 31);
    assert MonthLength(d.year * 12 + 1) == 28;
    assert FirstOfMonth(d.year * 12 + 2) == Date(2025, 3, 1);
  }

  /**
   * The follow-up after a check-in on January 30th, 2025 moves the calendar
   * to February 30th, which is March 2nd: February is skipped.
   */
  lemma JsFollowUpSkipsFebruary()
    ensures var d := Date(2025, 1, 30);
            JsSetMonth(d, d.month - 1 + 1) == Date(2025, 3, 2)
            && MonthIndex(JsSetMonth(d, d.month - 1 + 1)) == MonthIndex(d) + 2
  {
    var d := Date(2025, 1, 30);
    assert MonthLength(d.year * 12 + 1) == 28;
    assert FirstOfMonth(d.year * 12 + 2) == Date(2025, 3, 1);
  }

  /**
   * The cursor moved by `delta` months: the month shown is exactly `delta`
   * months away and the day is kept, or clamped to the last day of a shorter
   * month.
   */
  function ShiftMonth(d: CalendarDate, delta: int): (r: CalendarDate)
    ensures MonthIndex(r) == MonthIndex(d) + delta
    ensures r.day <= d.day
    ensures r.day < d.day ==> r.day == DaysInMonth(r.year, r.month)
  {
    var first := FirstOfMonth(MonthIndex(d) + delta);
    var length := DaysInMonth(first.year, first.month);
    Date(first.year, first.month, if d.day <= length then d.day else length)
  }

  /** Going forward `delta` months and back again returns to the month shown before. */
  lemma ShiftMonthRoundTrip(d: CalendarDate, delta: int)
    ensures var back := ShiftMonth(ShiftMonth(d, delta), -delta);
            back.year == d.year && back.month == d.month
  {
    var back := ShiftMonth(ShiftMonth(d, delta), -delta);
    assert MonthIndex(back) == MonthIndex(d);
  }

  /** Where `setMonth` does not overflow, the corrected step agrees with it. */
  lemma ShiftMonthAgreesWithoutOverflow(d: CalendarDate, delta: int)
    requires d.day <= MonthLength(MonthIndex(d) + delta)
    ensures ShiftMonth(d, delta) == JsSetMonth(d, d.month - 1 + delta)
  {
    var r := JsSetMonth(d, d.month - 1 + delta);
    assert d.year * 12 + (d.month - 1 + delta) == MonthIndex(d) + delta;
    SameDayNumberIsSameDate(r, Date(r.year, r.month, d.day));
  }
}

=== FILE: date_text.dfy ===
/**
 * The text forms of a date and of a number that the booking widget reads and
 * writes: `String(n)`, `padStart(2, '0')`, `parseInt`, the stored
 * `YYYY-MM-DD` form of `dateToString`, the reading of that form by
 * `new Date(string)`, and the `Mon D, YYYY` form of `formatDateDisplay`.
 */
module DateText {
  import opened Wrappers
  import opened Dates

  function DigitChar(k: int): (c: char)
    requires 0 <= k <= 9
    ensures '0' <= c <= '9'
  {
    (48 + k) as char
  }

  /** `String(n)` for a non-negative integer: decimal, no leading zeros. */
  function NatToString(n: nat): (s: string)
    ensures 1 <= |s|
    ensures AllDigits(s, 10)
    decreases n
  {
    if n < 10 then [DigitChar(n)] else NatToString(n / 10) + [DigitChar(n % 10)]
  }

  /** `String(n)` for an integer. */
  function IntToString(n: int): string {
    if n < 0 then "-" + NatToString(-n) else NatToString(n)
  }

  /** `String(n).padStart(2, '0')`. */
  function Pad2(n: nat): string {
    if n < 10 then "0" + NatToString(n) else NatToString(n)
  }

  // ---- parseInt -----------------------------------------------------------

  /** ECMAScript StrWhiteSpaceChar, restricted to the code points listed. */
  predicate IsWhiteSpace(c: char) {
    var k := c as int;
    k == 9 || k == 10 || k == 11 || k == 12 || k == 13 || k == 32
    || k == 0xA0 || k == 0x2028 || k == 0x2029 || k == 0xFEFF
  }

  /** Value of a character as a digit in radix up to 36, or -1. */
  function DigitValue(c: char): (v: int)
    ensures -1 <= v < 36
    ensures '0' <= c <= '9' ==> v == c as int - 48
  {
    if '0' <= c <= '9' then c as int - 48
    else if 'a' <= c <= 'z' then c as int - 87
    else if 'A' <= c <= 'Z' then c as int - 55
    else -1
  }

  predicate IsDigitIn(c: char, radix: int) {
    0 <= DigitValue(c) < radix
  }

  predicate AllDigits(s: string, radix: int) {
    forall i :: 0 <= i < |s| ==> IsDigitIn(s[i], radix)
  }

  /** The longest prefix of `s` made of digits of the given radix. */
  function DigitPrefix(s: string, radix: int): (p: string)
    ensures AllDigits(p, radix)
  {
    if |s| > 0 && IsDigitIn(s[0], radix) then [s[0]] + DigitPrefix(s[1..], radix) else []
  }

  /** The value of a string of digits, most significant first. */
  function DigitsValue(ds: string, radix: nat): nat
    requires AllDigits(ds, radix)
  {
    if ds == [] then 0
    else
      assert IsDigitIn(ds[|ds| - 1], radix);
      DigitsValue(ds[..|ds| - 1], radix) * radix + DigitValue(ds[|ds| - 1])
  }

  function TrimStart(s: string): string {
    if |s| > 0 && IsWhiteSpace(s[0]) then TrimStart(s[1..]) else s
  }

  /**
   * `DigitPrefix` is a prefix of `s` that stops exactly at the first
   * character that is not a digit.
   */
  lemma {:induction false} DigitPrefixIsLongest(s: string, radix: int)
    ensures var p := DigitPrefix(s, radix);
            |p| <= |s| && p == s[..|p|] && (|p| < |s| ==> !IsDigitIn(s[|p|], radix))
    decreases |s|
  {
    if |s| > 0 && IsDigitIn(s[0], radix) {
      DigitPrefixIsLongest(s[1..], radix);
    }
  }

  /** `TrimStart` drops a prefix of `s` and leaves no white space in front. */
  lemma {:induction false} TrimStartIsSuffix(s: string)
    ensures var t := TrimStart(s);
            |t| <= |s| && t == s[|s| - |t|..] && (t == [] || !IsWhiteSpace(t[0]))
    decreases |s|
  {
    if |s| > 0 && IsWhiteSpace(s[0]) {
      TrimStartIsSuffix(s[1..]);
    }
  }

  /**
   * The digits after the sign: a `0x`/`0X` prefix selects radix 16, otherwise
   * radix 10; the longest run of digits is read, and `None` stands for NaN
   * (no digit at all).
   */
  function ParseUnsigned(u: string): Option<nat> {
    var hex := |u| >= 2 && u[0] == '0' && (u[1] == 'x' || u[1] == 'X');
    var radix := if hex then 16 else 10;
    var digits := DigitPrefix(if hex then u[2..] else u, radix);
    if digits == [] then None else Some(DigitsValue(digits, radix))
  }

  /**
   * `parseInt(s)` with no radix argument: leading white space skipped, one
   * optional sign, then `ParseUnsigned`.
   */
  function ParseInt(s: string): Option<int> {
    var t := TrimStart(s);
    if |t| > 0 && t[0] == '-' then Signed(ParseUnsigned(t[1..]), true)
    else if |t| > 0 && t[0] == '+' then Signed(ParseUnsigned(t[1..]), false)
    else Signed(ParseUnsigned(t), false)
  }

  function Signed(magnitude: Option<nat>, negative: bool): Option<int> {
    match magnitude
    case None => None
    case Some(k) => Some(if negative then -(k as int) else k)
  }

  lemma {:induction false} NatToStringValue(n: nat)
    ensures DigitsValue(NatToString(n), 10) == n
    decreases n
  {
    var s := NatToString(n);
    if n >= 10 {
      NatToStringValue(n / 10);
      assert s[..|s| - 1] == NatToString(n / 10);
    }
  }

  lemma NatToStringLeadingZero(n: nat)
    ensures NatToString(n)[0] == '0' ==> n == 0 && NatToString(n) == "0"
    decreases n
  {
    if n >= 10 {
      NatToStringLeadingZero(n / 10);
    }
  }

  lemma {:induction false} DigitPrefixStopsAt(ds: string, rest: string, radix: int)
    requires AllDigits(ds, radix)
    requires rest == [] || !IsDigitIn(rest[0], radix)
    ensures DigitPrefix(ds + rest, radix) == ds
    decreases |ds|
  {
    if ds != [] {
      assert (ds + rest)[1..] == ds[1..] + rest;
      DigitPrefixStopsAt(ds[1..], rest, radix);
    }
  }

  /** A character that can neither continue a number nor form a `0x` prefix. */
  predicate EndsNumber(c: char) {
    DigitValue(c) == -1
  }

  lemma ParseUnsignedOfNatToString(n: nat, rest: string)
    requires rest == [] || EndsNumber(rest[0])
    ensures ParseUnsigned(NatToString(n) + rest) == Some(n)
  {
    var digits := NatToString(n);
    NatToStringValue(n);
    NatToStringLeadingZero(n);
    DigitPrefixStopsAt(digits, rest, 10);
  }

  lemma ParseIntOfDigits(u: string, k: nat)
    requires |u| > 0 && '0' <= u[0] <= '9'
    requires ParseUnsigned(u) == Some(k)
    ensures ParseInt(u) == Some(k)
  {
    assert !IsWhiteSpace(u[0]) && u[0] != '-' && u[0] != '+' by {
      assert 48 <= u[0] as int <= 57;
    }
    assert TrimStart(u) == u;
  }

  lemma ParseIntOfMinus(t: string, k: nat)
    requires |t| > 0 && t[0] == '-'
    requires ParseUnsigned(t[1..]) == Some(k)
    ensures ParseInt(t) == Some(-(k as int))
  {
    assert !IsWhiteSpace(t[0]) by {
      assert t[0] as int == 45;
    }
    assert TrimStart(t) == t;
    assert ParseInt(t) == Signed(ParseUnsigned(t[1..]), true);
  }

  /** `String(n)` of a negative `n` is a minus sign followed by the digits of `-n`. */
  lemma NegativeText(n: int, rest: string)
    requires n < 0
    ensures var t := IntToString(n) + rest;
            |t| > 0 && t[0] == '-' && t[1..] == NatToString(-n) + rest
  {
    var digits := NatToString(-n);
    assert IntToString(n) + rest == ['-'] + (digits + rest);
  }

  /** `String(n)` of a natural number starts with a decimal digit. */
  lemma FirstIsDigit(n: nat, rest: string)
    ensures var u := NatToString(n) + rest;
            |u| > 0 && '0' <= u[0] <= '9'
  {
    var digits := NatToString(n);
    assert IsDigitIn(digits[0], 10);
    assert (digits + rest)[0] == digits[0];
  }

  /**
   * `parseInt` reads back the integer `String(n)` wrote, also when text that
   * cannot continue a number follows it.
   */
  lemma ParseIntOfIntToString(n: int, rest: string)
    requires rest == [] || EndsNumber(rest[0])
    ensures ParseInt(IntToString(n) + rest) == Some(n)
  {
    if n < 0 {
      ParseIntOfNegative(n, rest);
    } else {
      ParseIntOfNatural(n, rest);
    }
  }

  lemma ParseIntOfNegative(n: int, rest: string)
    requires n < 0
    requires rest == [] || EndsNumber(rest[0])
    ensures ParseInt(IntToString(n) + rest) == Some(n)
  {
    var t := IntToString(n) + rest;
    NegativeText(n, rest);
    ParseUnsignedOfNatToString(-n, rest);
    ParseIntOfMinus(t, -n);
  }

  lemma ParseIntOfNatural(n: nat, rest: string)
    requires rest == [] || EndsNumber(rest[0])
    ensures ParseInt(IntToString(n) + rest) == Some(n)
  {
    ParseUnsignedOfNatToString(n, rest);
    FirstIsDigit(n, rest);
    ParseIntOfDigits(NatToString(n) + rest, n);
  }

  // ---- dateToString and its reading by new Date(string) --------------------

  /** `dateToString`: year, 1-based month padded to 2 digits, day padded to 2 digits. */
  function DateToString(d: CalendarDate): string {
    IntToString(d.year) + "-" + Pad2(d.month) + "-" + Pad2(d.day)
  }

  /**
   * The fields a `YYYY-MM-DD` string holds, whatever the length of its year:
   * the last six characters are `-MM-DD`, and `parseInt` reads the year from
   * what precedes them.
   */
  function StoredFields(s: string): Option<Date> {
    if |s| >= 7 && s[|s| - 6] == '-' && s[|s| - 3] == '-'
       && AllDigits(s[|s| - 5..|s| - 3], 10) && AllDigits(s[|s| - 2..], 10)
    then
      match ParseInt(s[..|s| - 6])
      case None => None
      case Some(y) => Some(Date(y, DigitsValue(s[|s| - 5..|s| - 3], 10), DigitsValue(s[|s| - 2..], 10)))
    else None
  }

  /** The stored string of a date holds exactly that date's fields. */
  lemma DateToStringFields(d: CalendarDate)
    ensures StoredFields(DateToString(d)) == Some(d)
  {
    var y := IntToString(d.year);
    Pad2Value(d.month);
    Pad2Value(d.day);
    ParseIntOfIntToString(d.year, []);
    assert y + [] == y;
    FieldsOfStoredText(y, Pad2(d.month), Pad2(d.day), d.year, d.month, d.day);
  }

  /** Any text, a dash, two digits, a dash and two digits reads back as those three fields. */
  lemma FieldsOfStoredText(y: string, mm: string, dd: string, year: int, month: nat, day: nat)
    requires ParseInt(y) == Some(year)
    requires |mm| == 2 && AllDigits(mm, 10) && DigitsValue(mm, 10) == month
    requires |dd| == 2 && AllDigits(dd, 10) && DigitsValue(dd, 10) == day
    ensures StoredFields(y + "-" + mm + "-" + dd) == Some(Date(year, month, day))
  {
    StoredTextSlices(y, mm, dd);
  }

  /** Where the parts of `y-mm-dd` sit, for two-character `mm` and `dd`. */
  lemma StoredTextSlices(y: string, mm: string, dd: string)
    requires |mm| == 2 && |dd| == 2
    ensures var s := y + "-" + mm + "-" + dd;
            && |s| == |y| + 6 && s[|s| - 6] == '-' && s[|s| - 3] == '-'
            && s[|s| - 5..|s| - 3] == mm && s[|s| - 2..] == dd && s[..|s| - 6] == y
  {
    var s := y + "-" + mm + "-" + dd;
    var k := |y|;
    assert s[k + 1..k + 3] == mm;
    assert s[k + 4..] == dd;
    assert s[..k] == y;
  }

  lemma Pad2Value(n: nat)
    requires n < 100
    ensures |Pad2(n)| == 2
    ensures AllDigits(Pad2(n), 10)
    ensures DigitsValue(Pad2(n), 10) == n
  {
    NatToStringValue(n);
    if n >= 10 {
      NatToStringValue(n / 10);
    }
  }

  /**
   * Distinct dates have distinct stored strings, so the widget's string
   * comparison `dateToString(date) === selectedCheckIn` is date equality.
   */
  lemma DateToStringInjective(a: CalendarDate, b: CalendarDate)
    requires DateToString(a) == DateToString(b)
    ensures a == b
  {
    DateToStringFields(a);
    DateToStringFields(b);
  }

  /**
   * `new Date("YYYY-MM-DD")` as a calendar day: exactly four year digits, two
   * month digits and two day digits naming a real date; anything else is an
   * invalid date (`None`).
   */
  function ParseIsoDate(s: string): Option<CalendarDate> {
    if |s| == 10 && s[4] == '-' && s[7] == '-'
       && (forall k :: 0 <= k < 10 && k != 4 && k != 7 ==> '0' <= s[k] <= '9')
    then
      var y := DigitsValue(s[..4], 10);
      var m := DigitsValue(s[5..7], 10);
      var d := DigitsValue(s[8..], 10);
      if IsValid(Date(y, m, d)) then Some(Date(y, m, d)) else None
    else None
  }

  lemma NatToStringFourDigits(n: nat)
    requires 1000 <= n <= 9999
    ensures |NatToString(n)| == 4
  {
    assert |NatToString(n / 1000)| == 1;
    assert |NatToString(n / 100)| == 2 by { assert (n / 100) / 10 == n / 1000; }
    assert |NatToString(n / 10)| == 3 by { assert (n / 10) / 10 == n / 100; }
  }

  /**
   * Reading back a stored date string gives the date that was stored, for
   * every four-digit year.
   */
  lemma DateStringRoundTrip(d: CalendarDate)
    requires 1000 <= d.year <= 9999
    ensures ParseIsoDate(DateToString(d)) == Some(d)
  {
    var s := DateToString(d);
    NatToStringFourDigits(d.year);
    NatToStringValue(d.year);
    Pad2Value(d.month);
    Pad2Value(d.day);
    assert s[..4] == NatToString(d.year);
    assert s[5..7] == Pad2(d.month);
    assert s[8..] == Pad2(d.day);
  }

  // ---- formatDateDisplay ---------------------------------------------------

  function MonthAbbrev(m: int): (a: string)
    requires 1 <= m <= 12
    ensures |a| == 3
  {
    ["Jan", "Feb", "Mar", "Apr", "May", "Jun", "Jul", "Aug", "Sep", "Oct", "Nov", "Dec"][m - 1]
  }

  /** `formatDateDisplay`: abbreviated month, unpadded day, comma, year (`Mar 1, 2025`). */
  function FormatDateDisplay(d: CalendarDate): string {
    MonthAbbrev(d.month) + " " + NatToString(d.day) + ", " + IntToString(d.year)
  }

  /** The month whose abbreviation is `a`, if any. */
  function MonthOfAbbrev(a: string): (m: Option<int>)
    ensures m.Some? ==> 1 <= m.value <= 12 && MonthAbbrev(m.value) == a
  {
    if a == "Jan" then Some(1) else if a == "Feb" then Some(2) else if a == "Mar" then Some(3)
    else if a == "Apr" then Some(4) else if a == "May" then Some(5) else if a == "Jun" then Some(6)
    else if a == "Jul" then Some(7) else if a == "Aug" then Some(8) else if a == "Sep" then Some(9)
    else if a == "Oct" then Some(10) else if a == "Nov" then Some(11) else if a == "Dec" then Some(12)
    else None
  }

  /**
   * The fields a `Mon D, YYYY` text names: the month from the three-letter
   * abbreviation, the day `parseInt` reads after it, the year `parseInt`
   * reads after the comma and space that follow the day.
   */
  function DisplayedFields(s: string): Option<Date> {
    if |s| < 4 then None
    else
      match MonthOfAbbrev(s[..3])
      case None => None
      case Some(m) => DayAndYearFields(m, s[4..])
  }

  /** The day and year of the text after `Mon `, in month `m`. */
  function DayAndYearFields(m: int, rest: string): Option<Date> {
    var dayDigits := DigitPrefix(rest, 10);
    if |dayDigits| + 2 > |rest| then None
    else
      match (ParseInt(rest), ParseInt(rest[|dayDigits| + 2..]))
      case (Some(day), Some(y)) => Some(Date(y, m, day))
      case _ => None
  }

  lemma MonthOfAbbrevOfMonth(m: int)
    requires 1 <= m <= 12
    ensures MonthOfAbbrev(MonthAbbrev(m)) == Some(m)
  {
  }

  /** The displayed text of a date names exactly that date. */
  lemma FormatDateDisplayFields(d: CalendarDate)
    ensures DisplayedFields(FormatDateDisplay(d)) == Some(d)
  {
    var day := NatToString(d.day);
    var year := IntToString(d.year);
    var tail := ", " + year;
    assert tail[0] == ',' && EndsNumber(',');
    MonthOfAbbrevOfMonth(d.month);
    assert IntToString(d.day) == day;
    ParseIntOfIntToString(d.day, tail);
    ParseIntOfIntToString(d.year, []);
    assert year + [] == year;
    FieldsOfDisplayedText(MonthAbbrev(d.month), day, year, d.month, d.day, d.year);
  }

  /**
   * A month abbreviation, a space, a run of digits, a comma and a space, then
   * a year, reads back as that month, day and year.
   */
  lemma FieldsOfDisplayedText(a: string, day: string, year: string, m: int, dayValue: int, yearValue: int)
    requires MonthOfAbbrev(a) == Some(m)
    requires |day| >= 1 && AllDigits(day, 10)
    requires ParseInt(day + (", " + year)) == Some(dayValue)
    requires ParseInt(year) == Some(yearValue)
    ensures DisplayedFields(a + " " + day + ", " + year) == Some(Date(yearValue, m, dayValue))
  {
    var s := a + " " + day + ", " + year;
    DisplayTextSlices(a, day, year);
    assert MonthOfAbbrev(s[..3]) == Some(m);
    DayAndYearOfText(m, day, year, dayValue, yearValue);
  }

  lemma DayAndYearOfText(m: int, day: string, year: string, dayValue: int, yearValue: int)
    requires |day| >= 1 && AllDigits(day, 10)
    requires ParseInt(day + (", " + year)) == Some(dayValue)
    requires ParseInt(year) == Some(yearValue)
    ensures DayAndYearFields(m, day + (", " + year)) == Some(Date(yearValue, m, dayValue))
  {
    var tail := ", " + year;
    var rest := day + tail;
    assert tail[0] == ',' && !IsDigitIn(',', 10);
    DigitPrefixStopsAt(day, tail, 10);
    assert rest[|day| + 2..] == year;
  }

  /** Where the parts of `a d, y` sit, for a three-letter `a`. */
  lemma DisplayTextSlices(a: string, day: string, year: string)
    requires |a| == 3
    ensures var s := a + " " + day + ", " + year;
            && |s| == 4 + |day| + 2 + |year| && s[..3] == a
            && s[4..] == day + (", " + year) && s[4 + |day| + 2..] == year
  {
    var s := a + " " + day + ", " + year;
    assert s[..3] == a;
    assert s[4..] == day + (", " + year);
    assert s[4 + |day| + 2..] == year;
  }

  /** Distinct dates are displayed differently. */
  lemma FormatDateDisplayInjective(a: CalendarDate, b: CalendarDate)
    requires FormatDateDisplay(a) == FormatDateDisplay(b)
    ensures a == b
  {
    FormatDateDisplayFields(a);
    FormatDateDisplayFields(b);
  }
}

=== FILE: dates.dfy ===
/**
 * Day-granular Gregorian calendar dates, as the booking widget uses them.
 *
 * JavaScript `Date` objects are compared by their time value; every date the
 * widget compares has its time of day zeroed, so a date is modelled by its
 * ordinal day number and `Before` compares those ordinals.
 */
module Dates {

  datatype Date = Date(year: int, month: int, day: int)

  /** Gregorian leap rule, as `new Date(year, month + 1, 0).getDate()` applies it. */
  predicate IsLeapYear(y: int) {
    y % 4 == 0 && (y % 100 != 0 || y % 400 == 0)
  }

  /** Number of days in month `m` (1-based) of year `y`. */
  function DaysInMonth(y: int, m: int): (n: int)
    requires 1 <= m <= 12
    ensures 28 <= n <= 31
    ensures n == 29 <==> m == 2 && IsLeapYear(y)
  {
    if m == 2 then (if IsLeapYear(y) then 29 else 28)
    else if m == 4 || m == 6 || m == 9 || m == 11 then 30
    else 31
  }

  predicate IsValid(d: Date) {
    1 <= d.month <= 12 && 1 <= d.day <= DaysInMonth(d.year, d.month)
  }

  /** A date that names a real calendar day (month 1..12, day within the month). */
  type CalendarDate = d: Date | IsValid(d) witness Date(1970, 1, 1)

  function DaysInYear(y: int): int {
    if IsLeapYear(y) then 366 else 365
  }

  /** Days from 0001-01-01 to January 1st of year `y` (negative before year 1). */
  function DaysBeforeYear(y: int): int {
    var n := y - 1;
    365 * n + n / 4 - n / 100 + n / 400
  }

  /** Days from January 1st to the first day of month `m` of year `y`. */
  function DaysBeforeMonth(y: int, m: int): int
    requires 1 <= m <= 12
  {
    var common :=
      if m == 1 then 0 else if m == 2 then 31 else if m == 3 then 59
      else if m == 4 then 90 else if m == 5 then 120 else if m == 6 then 151
      else if m == 7 then 181 else if m == 8 then 212 else if m == 9 then 243
      else if m == 10 then 273 else if m == 11 then 304 else 334;
    if m > 2 && IsLeapYear(y) then common + 1 else common
  }

  /** Ordinal day number: 0001-01-01 is day 0. */
  function DayNumber(d: CalendarDate): int {
    DaysBeforeYear(d.year) + DaysBeforeMonth(d.year, d.month) + d.day - 1
  }

  /** Strictly earlier, at day granularity (JavaScript `<` on midnight time values). */
  predicate Before(a: CalendarDate, b: CalendarDate) {
    DayNumber(a) < DayNumber(b)
  }

  /** Lexicographic order on (year, month, day). */
  predicate LexBefore(a: Date, b: Date) {
    a.year < b.year
    || (a.year == b.year && (a.month < b.month || (a.month == b.month && a.day < b.day)))
  }

  /** Whole days from `a` to `b`: the `Math.ceil` of the millisecond difference over one day. */
  function DaysBetween(a: CalendarDate, b: CalendarDate): (n: int)
    ensures n > 0 <==> Before(a, b)
    ensures n == 0 <==> a == b
  {
    SameDayNumberIsSameDate(a, b);
    DayNumber(b) - DayNumber(a)
  }

  /** `Date.prototype.getDay()`: 0 is Sunday, 6 is Saturday. */
  function Weekday(d: CalendarDate): (w: int)
    ensures 0 <= w < 7
  {
    (DayNumber(d) + 1) % 7
  }

  /** The calendar day after `d`, rolling over the end of a month and of a year. */
  function NextDay(d: CalendarDate): CalendarDate {
    if d.day < DaysInMonth(d.year, d.month) then Date(d.year, d.month, d.day + 1)
    else if d.month < 12 then Date(d.year, d.month + 1, 1)
    else Date(d.year + 1, 1, 1)
  }

  /** The next calendar day is the next ordinal, also across month and year ends. */
  lemma NextDayIsOneLater(d: CalendarDate)
    ensures DayNumber(NextDay(d)) == DayNumber(d) + 1
  {
    if d.day == DaysInMonth(d.year, d.month) && d.month == 12 {
      YearStep(d.year);
    }
  }

  /** Each day's weekday follows the previous day's, wrapping from Saturday to Sunday. */
  lemma WeekdayOfNextDay(d: CalendarDate)
    ensures Weekday(NextDay(d)) == (Weekday(d) + 1) % 7
  {
    NextDayIsOneLater(d);
    ModSevenSucc(DayNumber(d) + 1);
  }

  lemma ModSevenSucc(a: int)
    ensures (a + 1) % 7 == (a % 7 + 1) % 7
  {
    var q, r := a / 7, a % 7;
    assert a == 7 * q + r;
    if r < 6 {
      assert a + 1 == 7 * q + (r + 1);
    } else {
      assert a + 1 == 7 * (q + 1);
    }
  }

  /** January 1st 1970, the start of JavaScript time, was a Thursday. */
  lemma EpochIsThursday()
    ensures Weekday(Date(1970, 1, 1)) == 4
  {
    assert DaysBeforeYear(1970) == 719162;
  }

  lemma DivStep4(n: int)
    ensures (n + 1) / 4 == n / 4 + (if (n + 1) % 4 == 0 then 1 else 0)
  {
  }

  lemma DivStep100(n: int)
    ensures (n + 1) / 100 == n / 100 + (if (n + 1) % 100 == 0 then 1 else 0)
  {
  }

  lemma DivStep400(n: int)
    ensures (n + 1) / 400 == n / 400 + (if (n + 1) % 400 == 0 then 1 else 0)
  {
  }

  /** Consecutive years are exactly one year's length apart. */
  lemma YearStep(y: int)
    ensures DaysBeforeYear(y + 1) == DaysBeforeYear(y) + DaysInYear(y)
  {
    var n := y - 1;
    var step4 := if y % 4 == 0 then 1 else 0;
    var step100 := if y % 100 == 0 then 1 else 0;
    var step400 := if y % 400 == 0 then 1 else 0;
    DivStep4(n);
    DivStep100(n);
    DivStep400(n);
    assert y / 4 == n / 4 + step4;
    assert y / 100 == n / 100 + step100;
    assert y / 400 == n / 400 + step400;
    LeapSteps(y);
    assert step4 - step100 + step400 == DaysInYear(y) - 365;
    assert DaysBeforeYear(y) == 365 * n + n / 4 - n / 100 + n / 400;
    assert DaysBeforeYear(y + 1) == 365 * y + y / 4 - y / 100 + y / 400;
  }

  /** The leap rule as the three divisibility tests it combines. */
  lemma LeapSteps(y: int)
    ensures (if y % 4 == 0 then 1 else 0) - (if y % 100 == 0 then 1 else 0)
            + (if y % 400 == 0 then 1 else 0) == DaysInYear(y) - 365
  {
    if y % 400 == 0 {
      var k := y / 400;
      assert y == 100 * (4 * k);
      assert y == 4 * (100 * k);
    } else if y % 100 == 0 {
      var k := y / 100;
      assert y == 4 * (25 * k);
    }
  }

  /** Every day of an earlier year comes before January 1st of a later one. */
  lemma {:induction false} YearsAreOrdered(a: int, b: int)
    requires a < b
    ensures DaysBeforeYear(a) + DaysInYear(a) <= DaysBeforeYear(b)
    decreases b - a
  {
    YearStep(a);
    if a + 1 < b {
      YearsAreOrdered(a + 1, b);
      YearStep(a + 1);
    }
  }

  /** The day's offset within its year lies inside that year. */
  lemma DayOfYearBounds(d: CalendarDate)
    ensures 0 <= DaysBeforeMonth(d.year, d.month) + d.day - 1 < DaysInYear(d.year)
  {
  }

  lemma MonthsAreOrdered(y: int, m1: int, m2: int)
    requires 1 <= m1 < m2 <= 12
    ensures DaysBeforeMonth(y, m1) + DaysInMonth(y, m1) <= DaysBeforeMonth(y, m2)
  {
  }

  /**
   * The ordinal order is the calendar's (year, month, day) order, so comparing
   * time values and comparing the written date agree.
   */
  lemma {:induction false} BeforeIsLexicographic(a: CalendarDate, b: CalendarDate)
    ensures Before(a, b) <==> LexBefore(a, b)
  {
    if LexBefore(a, b) {
      LexBeforeImpliesBefore(a, b);
    } else if a == b {
    } else {
      LexBeforeImpliesBefore(b, a);
    }
  }

  lemma LexBeforeImpliesBefore(a: CalendarDate, b: CalendarDate)
    requires LexBefore(a, b)
    ensures Before(a, b)
  {
    DayOfYearBounds(a);
    DayOfYearBounds(b);
    if a.year < b.year {
      YearsAreOrdered(a.year, b.year);
    } else if a.month < b.month {
      MonthsAreOrdered(a.year, a.month, b.month);
    }
  }

  /** Two dates fall on the same day exactly when they are the same date. */
  lemma SameDayNumberIsSameDate(a: CalendarDate, b: CalendarDate)
    ensures DayNumber(a) == DayNumber(b) <==> a == b
  {
    BeforeIsLexicographic(a, b);
    BeforeIsLexicographic(b, a);
  }

  /** Index of the month on a continuous month scale (January of year 0 is 0). */
  function MonthIndex(d: Date): int {
    d.year * 12 + (d.month - 1)
  }
}

=== FILE: grid.dfy ===
/**
 * The month grid `renderCalendar` builds: one blank cell per weekday before
 * the 1st (Sunday first), then one cell per day of the month, each marked
 * disabled, today, range start, range end or in range.
 */
module CalendarGrid {
  import opened Wrappers
  import opened Dates
  import DateText

  datatype Mark = Unmarked | RangeStart | RangeEnd | InRange

  /** A grid cell: an empty leading cell, or a day with its CSS classes. */
  datatype Cell = Blank | Day(day: int, disabled: bool, isToday: bool, mark: Mark)

  /** Column of the 1st of the cursor's month: `new Date(year, month, 1).getDay()`. */
  function FirstWeekday(cursor: CalendarDate): (column: int)
    ensures 0 <= column < 7
  {
    Weekday(Date(cursor.year, cursor.month, 1))
  }

  /** `new Date(year, month + 1, 0).getDate()`: the number of days of the cursor's month. */
  function MonthDays(cursor: CalendarDate): (n: int)
    ensures 28 <= n <= 31
    ensures n == 29 <==> cursor.month == 2 && IsLeapYear(cursor.year)
  {
    DaysInMonth(cursor.year, cursor.month)
  }

  /**
   * The cell of one day. Past days are disabled and get no other mark; the
   * selection is recognised by comparing `dateToString` texts, and the range
   * by comparing dates.
   */
  function DayCell(date: CalendarDate, today: CalendarDate,
                   checkIn: Option<CalendarDate>, checkOut: Option<CalendarDate>): (c: Cell)
    ensures c.Day? && c.day == date.day
    ensures c.disabled <==> Before(date, today)
    ensures c.isToday <==> date == today
    ensures c.disabled ==> c.mark == Unmarked
    ensures c.mark == RangeStart <==> !Before(date, today) && checkIn == Some(date)
    ensures c.mark == RangeEnd <==> !Before(date, today) && checkIn != Some(date) && checkOut == Some(date)
    ensures c.mark == InRange <==>
              && !Before(date, today) && checkIn.Some? && checkOut.Some?
              && Before(checkIn.value, date) && Before(date, checkOut.value)
  {
    SameDayNumberIsSameDate(date, today);
    if Before(date, today) then Day(date.day, true, false, Unmarked)
    else
      var isToday := DayNumber(date) == DayNumber(today);
      var text := DateText.DateToString(date);
      var mark :=
        if checkIn.Some? && text == DateText.DateToString(checkIn.value) then
          DateText.DateToStringInjective(date, checkIn.value);
          RangeStart
        else if checkOut.Some? && text == DateText.DateToString(checkOut.value) then
          DateText.DateToStringInjective(date, checkOut.value);
          RangeEnd
        else if checkIn.Some? && checkOut.Some? && Before(checkIn.value, date) && Before(date, checkOut.value) then
          InRange
        else
          Unmarked;
      Day(date.day, false, isToday, mark)
  }

  function MonthName(m: int): (name: string)
    requires 1 <= m <= 12
    ensures 3 <= |name| && forall i :: 0 <= i < |name| ==> name[i] != ' '
  {
    ["January", "February", "March", "April", "May", "June",
     "July", "August", "September", "October", "November", "December"][m - 1]
  }

  /** The grid's heading: the month's full name, a space, the year. */
  function MonthTitle(cursor: CalendarDate): string {
    MonthName(cursor.month) + " " + DateText.IntToString(cursor.year)
  }

  /**
   * The heading names the cursor's month before its first space, and
   * `parseInt` reads the cursor's year after it.
   */
  lemma MonthTitleNamesCursor(cursor: CalendarDate)
    ensures var title := MonthTitle(cursor);
            var k := |MonthName(cursor.month)|;
            && k < |title| && title[k] == ' '
            && (forall i :: 0 <= i < k ==> title[i] != ' ')
            && title[..k] == MonthName(cursor.month)
            && DateText.ParseInt(title[k + 1..]) == Some(cursor.year)
  {
    var title := MonthTitle(cursor);
    var k := |MonthName(cursor.month)|;
    assert title[k + 1..] == DateText.IntToString(cursor.year) + [];
    DateText.ParseIntOfIntToString(cursor.year, []);
  }

  /** The day `day` of the cursor's month. */
  function DateIn(cursor: CalendarDate, day: int): CalendarDate
    requires 1 <= day <= MonthDays(cursor)
  {
    Date(cursor.year, cursor.month, day)
  }

  /**
   * `renderCalendar`: the heading, and the blanks for the weekdays before
   * the 1st followed by one cell per day of the month, in order.
   */
  method RenderCalendar(cursor: CalendarDate, today: CalendarDate,
                        checkIn: Option<CalendarDate>, checkOut: Option<CalendarDate>)
    returns (title: string, cells: seq<Cell>)
    ensures title == MonthTitle(cursor)
    ensures |cells| == FirstWeekday(cursor) + MonthDays(cursor)
    ensures forall i :: 0 <= i < FirstWeekday(cursor) ==> cells[i] == Blank
    ensures forall day :: 1 <= day <= MonthDays(cursor) ==>
              cells[FirstWeekday(cursor) + day - 1] == DayCell(DateIn(cursor, day), today, checkIn, checkOut)
  {
    title := MonthName(cursor.month) + " " + DateText.IntToString(cursor.year);
    var firstDay := FirstWeekday(cursor);
    var daysInMonth := MonthDays(cursor);
    cells := [];
    var i := 0;
    while i < firstDay
      invariant 0 <= i <= firstDay
      invariant |cells| == i
      invariant forall k :: 0 <= k < i ==> cells[k] == Blank
    {
      cells := cells + [Blank];
      i := i + 1;
    }
    var day := 1;
    while day <= daysInMonth
      invariant 1 <= day <= daysInMonth + 1
      invariant |cells| == firstDay + day - 1
      invariant forall k :: 0 <= k < firstDay ==> cells[k] == Blank
      invariant forall d :: 1 <= d < day ==>
                  cells[firstDay + d - 1] == DayCell(DateIn(cursor, d), today, checkIn, checkOut)
    {
      cells := cells + [DayCell(DateIn(cursor, day), today, checkIn, checkOut)];
      day := day + 1;
    }
  }

  /** One day after another is one more day number. */
  lemma DayNumberWithinMonth(cursor: CalendarDate, day: int)
    requires 1 <= day <= MonthDays(cursor)
    ensures DayNumber(DateIn(cursor, day)) == DayNumber(DateIn(cursor, 1)) + day - 1
  {
  }

  /**
   * The grid is seven columns wide and the cell of every day stands in the
   * column of its weekday.
   */
  lemma DayCellColumn(cursor: CalendarDate, day: int)
    requires 1 <= day <= MonthDays(cursor)
    ensures (FirstWeekday(cursor) + day - 1) % 7 == Weekday(DateIn(cursor, day))
  {
    var n := DayNumber(DateIn(cursor, 1)) + 1;
    DayNumberWithinMonth(cursor, day);
    var q := n / 7;
    assert n == 7 * q + n % 7;
    assert n + day - 1 == 7 * q + (n % 7 + day - 1);
    ModShift(q, n % 7 + day - 1);
  }

  lemma ModShift(q: int, r: int)
    ensures (7 * q + r) % 7 == r % 7
  {
  }
}

=== FILE: pricing.dfy ===
/**
 * The booking price (`calculatePrice`): nights times travelers times the
 * destination's nightly base price times the cabin-class multiplier, or 0
 * when the destination or either date is missing or the dates are out of
 * order.
 */
module Pricing {
  import opened Wrappers
  import opened Dates
  import DateText

  /** The options of the destination select; an empty value is `None`. */
  datatype Destination = Luna | Mars | Orbit

  /** The options of the cabin-class select. */
  datatype CabinClass = Standard | Luxury | Elite

  /** `basePrices`: price per person per night. */
  function BasePrice(dest: Destination): nat {
    match dest
    case Luna => 1200
    case Mars => 2000
    case Orbit => 3500
  }

  /** `classMultipliers` in quarters: 1.0, 1.5 and 2.25 are 4/4, 6/4 and 9/4. */
  function MultiplierQuarters(cabin: CabinClass): nat {
    match cabin
    case Standard => 4
    case Luxury => 6
    case Elite => 9
  }

  /**
   * Price per traveler per night: base price times multiplier, which is a
   * whole number for every destination and class.
   */
  function NightlyRate(dest: Destination, cabin: CabinClass): (rate: nat)
    ensures 4 * rate == BasePrice(dest) * MultiplierQuarters(cabin)
    ensures rate >= BasePrice(dest)
  {
    BasePrice(dest) * MultiplierQuarters(cabin) / 4
  }

  /**
   * `parseInt(travelersInput.value) || 1`: the parsed count, except that NaN
   * and zero fall back to 1; a negative count is kept.
   */
  function TravelerCount(text: string): (n: int)
    ensures n != 0
    ensures match DateText.ParseInt(text)
            case None => n == 1
            case Some(k) => n == (if k == 0 then 1 else k)
  {
    match DateText.ParseInt(text)
    case Some(k) => if k == 0 then 1 else k
    case None => 1
  }

  /**
   * The dates `calculatePrice` prices: the calendar selection when both of its
   * dates are set, otherwise the hidden check-in/check-out inputs when both of
   * those hold a date.
   */
  function StayDates(selectedIn: Option<CalendarDate>, selectedOut: Option<CalendarDate>,
                     inputIn: Option<CalendarDate>, inputOut: Option<CalendarDate>)
    : (stay: Option<(CalendarDate, CalendarDate)>)
    ensures stay.Some? <==> (selectedIn.Some? && selectedOut.Some?) || (inputIn.Some? && inputOut.Some?)
    ensures selectedIn.Some? && selectedOut.Some? ==> stay == Some((selectedIn.value, selectedOut.value))
    ensures !(selectedIn.Some? && selectedOut.Some?) && inputIn.Some? && inputOut.Some? ==>
              stay == Some((inputIn.value, inputOut.value))
  {
    if selectedIn.Some? && selectedOut.Some? then Some((selectedIn.value, selectedOut.value))
    else if inputIn.Some? && inputOut.Some? then Some((inputIn.value, inputOut.value))
    else None
  }

  /** True when `calculatePrice` gets past its guards and prices a stay. */
  predicate Priceable(dest: Option<Destination>, stay: Option<(CalendarDate, CalendarDate)>) {
    dest.Some? && stay.Some? && Before(stay.value.0, stay.value.1)
  }

  /** The total `calculatePrice` returns. */
  function CalculatePrice(dest: Option<Destination>, stay: Option<(CalendarDate, CalendarDate)>,
                          travelersText: string, cabin: CabinClass): (total: int)
    ensures !Priceable(dest, stay) ==> total == 0
    ensures Priceable(dest, stay) ==>
              4 * total == (DaysBetween(stay.value.0, stay.value.1) * TravelerCount(travelersText))
                           * (BasePrice(dest.value) * MultiplierQuarters(cabin))
  {
    if !Priceable(dest, stay) then 0
    else
      var units := DaysBetween(stay.value.0, stay.value.1) * TravelerCount(travelersText);
      var rate := NightlyRate(dest.value, cabin);
      ScaledProduct(units, rate);
      units * rate
  }

  lemma ScaledProduct(x: int, r: int)
    ensures 4 * (x * r) == x * (4 * r)
  {
  }

  /** Every priced stay lasts at least one night. */
  lemma PricedStayHasNights(a: CalendarDate, b: CalendarDate)
    requires Before(a, b)
    ensures DaysBetween(a, b) >= 1
  {
  }

  /**
   * The total is 0 exactly when a guard refuses: no destination, no complete
   * pair of dates, or check-in not strictly before check-out. Traveler count
   * and cabin class never make a priced stay free.
   */
  lemma {:induction false} PriceIsZeroExactlyWhenRefused(dest: Option<Destination>,
      stay: Option<(CalendarDate, CalendarDate)>, travelersText: string, cabin: CabinClass)
    ensures CalculatePrice(dest, stay, travelersText, cabin) == 0 <==> !Priceable(dest, stay)
  {
    if Priceable(dest, stay) {
      var nights := DaysBetween(stay.value.0, stay.value.1);
      var t := TravelerCount(travelersText);
      NonZeroProduct(nights, t);
      NonZeroProduct(BasePrice(dest.value), MultiplierQuarters(cabin));
      NonZeroProduct(nights * t, BasePrice(dest.value) * MultiplierQuarters(cabin));
    }
  }

  /**
   * A priced stay costs more than nothing exactly when the traveler count is
   * positive: a negative count that `parseInt` read is kept, and so is the
   * sign it gives the total.
   */
  lemma {:induction false} PriceSignFollowsTravelers(dest: Option<Destination>,
      stay: Option<(CalendarDate, CalendarDate)>, travelersText: string, cabin: CabinClass)
    requires Priceable(dest, stay)
    ensures CalculatePrice(dest, stay, travelersText, cabin) > 0 <==> TravelerCount(travelersText) > 0
  {
    var nights := DaysBetween(stay.value.0, stay.value.1);
    var t := TravelerCount(travelersText);
    var rate := NightlyRate(dest.value, cabin);
    PricedStayHasNights(stay.value.0, stay.value.1);
    PositiveFactor(nights, t);
    PositiveFactor(rate, nights * t);
    assert CalculatePrice(dest, stay, travelersText, cabin) == nights * t * rate;
  }

  /** Multiplying by a positive number keeps the sign. */
  lemma PositiveFactor(x: int, y: int)
    requires x > 0
    ensures x * y > 0 <==> y > 0
    ensures y * x > 0 <==> y > 0
  {
    if y > 0 {
      assert x * y >= y;
    } else {
      assert x * y <= 0;
    }
  }

  lemma NonZeroProduct(x: int, y: int)
    requires x != 0 && y != 0
    ensures x * y != 0
  {
  }

  /** Mars, March 1st to 4th 2025, two travelers, luxury class: $18,000. */
  lemma MarsExample()
    ensures CalculatePrice(Some(Mars), Some((Date(2025, 3, 1), Date(2025, 3, 4))), "2", Luxury) == 18000
  {
    var checkIn: CalendarDate, checkOut: CalendarDate := Date(2025, 3, 1), Date(2025, 3, 4);
    TwoTravelers();
    ThreeNightsInMarch();
    ThreeNightsForTwoInLuxury("2", checkIn, checkOut);
  }

  lemma ThreeNightsForTwoInLuxury(text: string, a: CalendarDate, b: CalendarDate)
    requires TravelerCount(text) == 2 && DaysBetween(a, b) == 3
    ensures CalculatePrice(Some(Mars), Some((a, b)), text, Luxury) == 18000
  {
  }

  lemma TwoTravelers()
    ensures TravelerCount("2") == 2
  {
    DateText.ParseIntOfIntToString(2, []);
    assert DateText.IntToString(2) + [] == "2";
  }

  lemma ThreeNightsInMarch()
    ensures DaysBetween(Date(2025, 3, 1), Date(2025, 3, 4)) == 3
  {
    assert DayNumber(Date(2025, 3, 1)) == DaysBeforeYear(2025) + 59;
  }

  /** Equal check-in and check-out dates price at $0. */
  lemma SameDayExample()
    ensures CalculatePrice(Some(Luna), Some((Date(2025, 6, 10), Date(2025, 6, 10))), "1", Standard) == 0
  {
  }

  /** A blank travelers field counts as one traveler. */
  lemma BlankTravelersExample()
    ensures TravelerCount("") == 1
    ensures CalculatePrice(Some(Orbit), Some((Date(2025, 6, 10), Date(2025, 6, 12))), "", Elite)
            == 2 * 7875
  {
  }
}

=== FILE: wrappers.dfy ===
/** Optional values: the model's stand-in for the source's `null` / empty-string "not set". */
module Wrappers {
  datatype Option<+T> = None | Some(value: T)
}
